=== FILE: README.md ===
# SlotMachineActions in Dafny

A model of the presentation component `SlotMachineActions` of a Unity slot-machine
game. The component:

- runs decorative light flares over an array of flare animators;
- schedules background music;
- plays a win celebration for every spin result.

The model is pure. The Unity clock is a `real` argument `now`. Every `Random.Range`
result is a parameter, constrained to the values Unity can draw:

- `IntDraw` covers the integer overload, whose upper end is excluded and which returns
  `lo` for an empty range;
- `Between` covers the float overload, where both ends are included.

Calls into the engine (animator triggers, audio events, the win text, the jackpot
effect, the spin-result-done event) are entries of an effect log (`Effects.Effect`).

Modules:

- `FlarePatterns` — one pulse of each flare coroutine: `StepFlares`, `RoundFlares`,
  `WinFlares` and `RandomFlares`. A pulse is one pass through the body of the pattern's
  `while` loop, and `Fire` dispatches to it. For a flare count that would make the C#
  divide by zero or index outside the array, `Fire` returns the fault instead.
- `FlareCover` — runs of consecutive pulses:
  - a Step run of `steps` pulses fires every flare exactly once;
  - a Round run of `n` pulses does the same;
  - a Win run of `n / 2` pulses fires every flare once, except the middle flare of an
    odd-sized array, which is never fired.
- `FlareSlot` — the `flaresCoroutine` field, as a slot holding at most one running task:
  - a task starts by running up to its first wait;
  - each resumption pulses and waits again, or clears the slot once its duration is over;
  - `Preempt` replaces any running task;
  - `Update`'s flare block (`FillIfEmpty`) starts a random pattern only when the slot is empty.
- `WinSequence` — the `WinSequence` coroutine for one spin result, as a plan:
  - the effects logged before the wait, and the flare slot left behind;
  - the wait (1, 3 or 4 seconds);
  - the effects logged after the wait.
- `MusicTimer` — the music fields under `Update`, `OnStartGame` and `OnStopGame`, plus a
  trace theorem: no two clips ever play at once.
- `SlotMachineActions` — the whole component. For any interleaving of frames, coroutine
  resumptions and game events, the slot stays valid and every flare trigger names an
  existing animator; and, for events in time order, no two clips ever play at once.

The music timers compare with a strict `>` (lines 47 and 54), so a clip starts, or is
dropped, only once `now` is strictly past the stored time.

## Model

| member | source | states |
|---|---|---|
| FlarePatterns.StepFire | Assets/Scripts/SlotMachineActions.cs:186-189 | the inner `for` loop fires strictly increasing indices from `i` up to, but excluding, the flare count |
| FlarePatterns.StepFireMember | Assets/Scripts/SlotMachineActions.cs:186-189 | an index is fired by the inner loop from `i` exactly when it lies in `[i, n)` and is congruent to `i` modulo `steps` |
| FlarePatterns.StepPulse | Assets/Scripts/SlotMachineActions.cs:184-189 | one StepFlares pulse advances the cursor to `(cursor + 1) % steps` and fires exactly the flares congruent to the new cursor, in increasing order |
| FlarePatterns.StepFireMembers | Assets/Scripts/SlotMachineActions.cs:186-189 | the membership fact of the inner loop for every flare at once |
| FlarePatterns.RoundPulse | Assets/Scripts/SlotMachineActions.cs:203-205 | one RoundFlares pulse advances the cursor modulo the flare count and fires that single flare |
| FlarePatterns.WinPulse | Assets/Scripts/SlotMachineActions.cs:219-222 | one WinFlares pulse fires a flare of the first half and its mirror; the two indices are in range, distinct and sum to `n - 1`; the middle flare of an odd count is not among them |
| FlarePatterns.RandomPulse | Assets/Scripts/SlotMachineActions.cs:165-169 | one RandomFlares pulse fires the drawn indices in draw order, all in range, with the cursor unchanged |
| FlarePatterns.Fire | Assets/Scripts/SlotMachineActions.cs:160-228 | a pulse succeeds exactly when the flare count supports the pattern; otherwise the fault is division by zero (Step, Round, Win) or index out of range (Random); on success every fired index is in range and the cursor stays one the pattern can reach |
| FlarePatterns.FirstPulse | Assets/Scripts/SlotMachineActions.cs:179-222 | a fresh task's first pulse: Step fires the flares congruent to `1 % steps`, Round fires flare `1 % n`, Win fires flare 0 and the last flare, and Random fires its draws |
| FlarePatterns.StepEightByThree | Assets/Scripts/SlotMachineActions.cs:184-189 | with eight flares and `steps = 3`, the pulse after cursor 1 fires exactly flares 2 and 5, in that order, and leaves the cursor at 2 |
| FlareCover.StepRunCursor | Assets/Scripts/SlotMachineActions.cs:179-191 | after `k > 0` Step pulses from cursor `c`, the cursor is `(c + k) % steps` |
| FlareCover.StepRunCount | Assets/Scripts/SlotMachineActions.cs:181-191 | within one cycle, the first `k` Step pulses fire a flare once if its turn comes within those `k` pulses, and otherwise not at all |
| FlareCover.StepPulseCount | Assets/Scripts/SlotMachineActions.cs:184-189 | one Step pulse fires a flare once when its turn is next, and otherwise not at all |
| FlareCover.StepRunBounds | Assets/Scripts/SlotMachineActions.cs:186-189 | a Step run fires only indices of the flare array |
| FlareCover.StepCover | Assets/Scripts/SlotMachineActions.cs:181-191 | from any cursor, `steps` consecutive Step pulses fire every flare exactly once and nothing else |
| FlareCover.RoundRunIsStepRun | Assets/Scripts/SlotMachineActions.cs:197-207 | a Round run is the Step run whose step is the flare count |
| FlareCover.RoundRunCursor | Assets/Scripts/SlotMachineActions.cs:199-207 | after `k > 0` Round pulses from cursor `c`, the cursor is `(c + k) % n` |
| FlareCover.RoundCover | Assets/Scripts/SlotMachineActions.cs:201-207 | from any cursor, `n` consecutive Round pulses fire every flare exactly once |
| FlareCover.WinRunCursor | Assets/Scripts/SlotMachineActions.cs:215-224 | after `k > 0` Win pulses from cursor `c`, the cursor is `(c + k) % (n / 2)` |
| FlareCover.WinRunBounds | Assets/Scripts/SlotMachineActions.cs:219-222 | a Win run fires only indices of the flare array, and never the middle flare of an odd count |
| FlareCover.MirrorCount | Assets/Scripts/SlotMachineActions.cs:221-222 | in a mirrored sequence, a flare occurs as often as it and its mirror occur in the original |
| FlareCover.WinRunIsMirror | Assets/Scripts/SlotMachineActions.cs:215-224 | a Win run fires the mirror of a Round run over the first `n / 2` flares |
| FlareCover.WinCover | Assets/Scripts/SlotMachineActions.cs:215-224 | from any cursor, `n / 2` consecutive Win pulses fire every flare exactly once, except the middle flare of an odd count, which fires zero times |
| FlareCover.WinCoverAt | Assets/Scripts/SlotMachineActions.cs:215-224 | the WinCover count for one flare |
| FlareSlot.NextPulse | Assets/Scripts/SlotMachineActions.cs:163-170 | the pulse a valid task makes fires only flares in range and keeps its cursor reachable |
| FlareSlot.Advance | Assets/Scripts/SlotMachineActions.cs:163-174 | a resumed task waits before its resume time; it pulses and waits again while before its deadline; it clears the slot once both have passed; it logs effects only while alive and keeps its pattern and deadline |
| FlareSlot.Start | Assets/Scripts/SlotMachineActions.cs:177-190 | starting a pattern leaves it in the slot with deadline `now + duration`; it fires its first pulse at once, keeps that pulse's cursor, and resumes after the pattern's wait |
| FlareSlot.Preempt | Assets/Scripts/SlotMachineActions.cs:104-109 | whatever the slot held, it then holds the new pattern, freshly started: deadline `now + duration`, the first pulse fired, its cursor kept, and the resume time one wait later |
| FlareSlot.FillIfEmpty | Assets/Scripts/SlotMachineActions.cs:68-83 | an occupied slot is untouched; an empty one receives, by the drawn pick, `StepFlares(0.5, 3, d)`, `RoundFlares(0.1, d)` or `RandomFlares(0.2, 0.4, 2, d)` for a drawn `d` of 5, 6 or 7 seconds, which fires its first pulse, keeps that cursor and resumes one wait later |
| FlareSlot.Resume | Assets/Scripts/SlotMachineActions.cs:170-174 | resuming an empty slot does nothing; a task is cleared exactly when it is due and its deadline has passed; one not yet due is left alone; otherwise it fires its next pulse, keeps that cursor and waits again; it keeps its pattern and fires only flares in range |
| WinSequence.Closing | Assets/Scripts/SlotMachineActions.cs:154-157 | after the wait, the win animator gets "Done" exactly from tier 2 on, and the spin-result-done event is always raised last |
| WinSequence.TierFirstPulse | Assets/Scripts/SlotMachineActions.cs:134-148 | the flares fired at once by a tier's preempting Win pattern are in range, and there are none below tier 2 |
| WinSequence.Run | Assets/Scripts/SlotMachineActions.cs:117-158 | the three independent tier tests produce: the tier's opening effects; a wait of 1, 3 or 4 seconds; the closing effects; and a slot that is untouched below 10 and otherwise preempted by `WinFlares(0.1, 3)` or `WinFlares(0.1, 5)`, whose first pulse leaves it at cursor 0, resuming 0.1 seconds later |
| WinSequence.OpeningMembers | Assets/Scripts/SlotMachineActions.cs:124-152 | a tier's opening holds its fixed cues and, from tier 2 on, the flare triggers of the preempting pattern, and nothing else |
| WinSequence.TierOpeningCues | Assets/Scripts/SlotMachineActions.cs:119-152 | each tier's opening holds exactly its own audio cue, the win text and "Start" trigger from tier 2 on, the jackpot only at tier 3, and nothing at tier 0 |
| WinSequence.TierOpeningFlares | Assets/Scripts/SlotMachineActions.cs:119-157 | no opening holds the "Done" trigger or the spin-result-done event, and its flare triggers are in range and appear only from tier 2 on |
| WinSequence.RunEffects | Assets/Scripts/SlotMachineActions.cs:120-152 | in terms of the result: low audio exactly in `[1, 10)`, medium in `[10, 30)`, high and the jackpot from 30 on, flare triggers only from 10 on, and no effect at all below 1 |
| WinSequence.TierOpeningNoMusic | Assets/Scripts/SlotMachineActions.cs:119-152 | no tier's opening starts a music clip |
| WinSequence.RunStartsNoMusic | Assets/Scripts/SlotMachineActions.cs:117-152 | the opening of any spin result starts no music clip |
| MusicTimer.Init | Assets/Scripts/SlotMachineActions.cs:41 | no clip is current in attract mode, and the first start is put off by an attract gap between the minimum and 1.5 times it |
| MusicTimer.Play | Assets/Scripts/SlotMachineActions.cs:49-51 | the drawn library clip becomes current, is played, and plays until `now` plus its length |
| MusicTimer.Update | Assets/Scripts/SlotMachineActions.cs:44-66 | a clip starts exactly when none is current and `now` is strictly past the next-play time; a clip whose time is strictly over is dropped, and the next start is put off by its length plus the mode's gap; otherwise nothing changes |
| MusicTimer.StartGame | Assets/Scripts/SlotMachineActions.cs:86-95 | game mode begins; a clip starts at once if none is current, and a current clip is left playing |
| MusicTimer.StopGame | Assets/Scripts/SlotMachineActions.cs:97-100 | attract mode begins; the clip and its timers are unchanged |
| MusicTimer.ApplyTracks | Assets/Scripts/SlotMachineActions.cs:44-100 | one frame or game event keeps the record of playback windows in step with the music fields |
| MusicTimer.WindowsAppend | Assets/Scripts/SlotMachineActions.cs:49-51 | the playback windows of a concatenation of effects are those of its parts |
| MusicTimer.WindowsNoMusic | Assets/Scripts/SlotMachineActions.cs:49-51 | effects that start no clip open no playback window |
| MusicTimer.NoOverlap | Assets/Scripts/SlotMachineActions.cs:44-100 | over any run of frames and game events, each clip's window ends before the next clip starts |
| MusicTimer.NoOverlapFromStart | Assets/Scripts/SlotMachineActions.cs:34-100 | from Start() on, no two clips ever play at the same time |
| SlotMachineActions.Init | Assets/Scripts/SlotMachineActions.cs:34-42 | the component starts with no flare task and no clip |
| SlotMachineActions.Update | Assets/Scripts/SlotMachineActions.cs:44-84 | the music fields change as the music timer's frame changes them, and its log entries come first; the slot changes as the flare block fills it; so a clip starts first in the log exactly when none is current and `now` is past the next-play time, a task is always running afterwards, an already running task is untouched, and only music audio or in-range flare triggers are logged |
| SlotMachineActions.ResumeFlares | Assets/Scripts/SlotMachineActions.cs:163-174 | resuming the flare coroutine leaves the music alone and fires only flares in range; it does nothing when no task runs or the task is not yet due; it clears the task exactly when it is due and past its deadline; a task that is due and still running fires its next pulse, keeps that cursor and waits again; it logs only from a task that is still running |
| SlotMachineActions.OnStartGame | Assets/Scripts/SlotMachineActions.cs:86-95 | the flare slot is untouched and game mode is on; with no clip current, the drawn library clip is played, becomes current, plays until `now` plus its length, and the next-play time is kept; otherwise nothing is logged and only the game flag changes |
| SlotMachineActions.OnStopGame | Assets/Scripts/SlotMachineActions.cs:97-100 | only the game flag changes |
| SlotMachineActions.OnSpinStart | Assets/Scripts/SlotMachineActions.cs:102-110 | whatever ran before, a fresh 5-second Round task runs: it fires flare `1 % n` at once, is left at cursor `1 % n` and resumes 0.1 seconds later; the music is untouched |
| SlotMachineActions.OnSpinResults | Assets/Scripts/SlotMachineActions.cs:112-115 | the plan is the win sequence for the result; its opening takes effect with the music untouched; a result below 10 leaves the state as it was; from 10 the slot holds `WinFlares(0.1, 3)` and from 30 `WinFlares(0.1, 5)`; the wait is 1, 3 or 4 seconds, and the closing is the tier's |
| SlotMachineActions.Apply | Assets/Scripts/SlotMachineActions.cs:36-39 | every event the component subscribes to keeps the flare slot valid |
| SlotMachineActions.ApplyFlaresInRange | Assets/Scripts/SlotMachineActions.cs:44-228 | one event logs only flare triggers on existing animators |
| SlotMachineActions.FlaresAlwaysInRange | Assets/Scripts/SlotMachineActions.cs:44-228 | over any interleaving of events, the slot stays valid and every flare trigger names an existing animator |
| SlotMachineActions.QuietTracks | Assets/Scripts/SlotMachineActions.cs:102-228 | effects that start no clip keep the playback record in step with the music fields as time moves on |
| SlotMachineActions.FrameTracks | Assets/Scripts/SlotMachineActions.cs:44-84 | a frame's flare block adds no window, so the frame keeps the record in step exactly as the music timer alone does |
| SlotMachineActions.ApplyTracksMusic | Assets/Scripts/SlotMachineActions.cs:36-228 | every event the component subscribes to keeps the record of playback windows in step with its music fields |
| SlotMachineActions.MusicWindowsFirst | Assets/Scripts/SlotMachineActions.cs:36-39 | the windows of a run of events are those opened by its first event followed by those of the rest |
| SlotMachineActions.MusicNeverOverlaps | Assets/Scripts/SlotMachineActions.cs:36-228 | over any interleaving of frames, flare resumptions, game events and spin events in time order, each clip ends before the next starts |
| SlotMachineActions.MusicNeverOverlapsFromStart | Assets/Scripts/SlotMachineActions.cs:34-228 | from Start() on, the whole component never plays two clips at once |

## Left out

- Unity wiring is not modelled: serialized fields, event-channel subscription, `TMP_Text` and `Animator` objects, `AudioClip` assets. These are external collaborators, and their calls are log entries.
- Floating point is not modelled. Times and durations are exact reals, so `Time.time` rounding and `float` arithmetic are not represented.
- Engine frame ordering is left out. `Update` and the resumption of the flare coroutine are separate transitions, and any interleaving of them is allowed.
- The wait of a running `WinSequence` is not modelled. The plan returns the closing effects and the wait, so two overlapping win sequences are not interleaved with each other.
- A pulse that faults inside a running coroutine is not modelled. This covers division by zero for an empty flare array, or for a Win pattern on fewer than two flares, and an index outside an empty array. The fault is returned by `FlarePatterns.Fire`, while the slot and component layers require a flare count that supports the pattern they start. Unity's behaviour after an exception in a coroutine is not part of this model.
- FlareSlot.Start: requires a positive duration. Every duration `SlotMachineActions` uses is positive, so the loop always runs at least once. A zero-duration start would call `StopCoroutine` on the field before it is assigned.
- MusicTimer.Play: requires a non-empty music library. With an empty library the C# indexes an empty array, and that crash is not modelled.
- The stop of a finished coroutine (`StopCoroutine` on its own handle, lines 173, 193, 209, 227) is modelled only as clearing the slot.

=== FILE: basics.dfy ===
/** Small shared vocabulary: optional values, results with the run-time faults the
    component can raise, the ranges Unity's random draws fall in, and a few facts
    about Euclidean remainders used by the flare cursor proofs.
 */
module Basics {

  /** An optional value; used for the single flare-task slot and the current music clip. */
  datatype Option<+T> = None | Some(value: T)

  /** The run-time exceptions the flare code can raise on a bad configuration. */
  datatype Fault = DivideByZero | IndexOutOfRange

  /** A computation that either succeeds or raises one of the faults above. */
  datatype Result<+T> = Ok(value: T) | Err(fault: Fault)

  /** A span of abstract time that cannot be negative, such as the length of a clip. */
  type Seconds = r: real | r >= 0.0

  /** `x` is a value the float `Random.Range(a, b)` can return: both ends included. */
  predicate Between(a: real, b: real, x: real) {
    if a <= b then a <= x <= b else b <= x <= a
  }

  /** `k` is a value the integer `Random.Range(lo, hi)` can return: `hi` is excluded,
      and an empty range yields `lo` itself. */
  predicate IntDraw(lo: int, hi: int, k: int) {
    if lo < hi then lo <= k < hi else k == lo
  }

  /** Euclidean division is unique: any quotient/remainder split of `x` with the
      remainder in `[0, m)` gives `x % m`. */
  lemma ModUnique(x: int, m: int, q: int, r: int)
    requires m > 0 && 0 <= r < m && x == q * m + r
    ensures x % m == r
  {
    var d := q - x / m;
    assert d * m == x % m - r;
    MulBounds(d, m);
  }

  /** A non-zero multiple of `m` is at least `m` away from zero. */
  lemma MulBounds(d: int, m: int)
    requires m > 0
    ensures d >= 1 ==> d * m >= m
    ensures d <= -1 ==> d * m <= -m
  {
  }

  /** A value already in `[0, m)` is its own remainder. */
  lemma ModSmall(a: int, m: int)
    requires 0 <= a < m
    ensures a % m == a
  {
    ModUnique(a, m, 0, a);
  }

  /** Adding the modulus does not change the remainder. */
  lemma ModAddModulus(a: int, m: int)
    requires m > 0
    ensures (a + m) % m == a % m
  {
    ModUnique(a + m, m, a / m + 1, a % m);
  }

  /** The remainder of a predecessor wraps from `0` to `m - 1`. */
  lemma ModPred(a: int, m: int)
    requires m > 0
    ensures (a - 1) % m == if a % m == 0 then m - 1 else a % m - 1
  {
    if a % m == 0 {
      ModUnique(a - 1, m, a / m - 1, m - 1);
    } else {
      ModUnique(a - 1, m, a / m, a % m - 1);
    }
  }

  /** Two distinct values with the same remainder are at least `m` apart. */
  lemma ResidueGap(i: int, x: int, m: int)
    requires m > 0 && i < x && x % m == i % m
    ensures x >= i + m
  {
    var d := x / m - i / m;
    assert x - i == d * m;
    MulBounds(d, m);
  }
}

=== FILE: effects.dfy ===
/** The fire-and-forget calls the component makes into the engine, recorded as
    entries of an effect log instead of being performed.
 */
module Effects {
  import opened Basics

  /** A music clip of the library: an identity and its playing length. */
  datatype Clip = Clip(id: nat, length: Seconds)

  /** What the audio event channel is asked to play. */
  datatype Sound = WinLow | WinMedium | WinHigh | MusicClip(clip: Clip)

  /** Triggers set on the win animator. */
  datatype WinTrigger = StartTrigger | DoneTrigger

  datatype Effect =
    | Flare(index: int)              // the "Flare" trigger on flare animator `index`
    | WinAnimator(trigger: WinTrigger)
    | WinText(text: string)
    | PlayAudio(sound: Sound)
    | Jackpot                        // the jackpot effect begins
    | SpinResultDone                 // the spin-result-done event is raised

  /** The log entries for firing the given flare indices, in order. */
  function Flares(fired: seq<int>): (e: seq<Effect>)
    ensures |e| == |fired|
    ensures forall k :: 0 <= k < |e| ==> e[k] == Flare(fired[k])
  {
    seq(|fired|, k requires 0 <= k < |fired| => Flare(fired[k]))
  }

  /** `e` asks the audio channel to play a music clip. */
  predicate StartsMusic(e: Effect) {
    e.PlayAudio? && e.sound.MusicClip?
  }

  /** No effect of `es` starts a music clip. */
  predicate NoMusic(es: seq<Effect>) {
    forall e :: e in es ==> !StartsMusic(e)
  }
}

=== FILE: flare_cover.dfy ===
/** Consecutive pulses of the deterministic patterns: where their cursors go and
    which flares a full cycle of pulses fires.
 */
module FlareCover {
  import opened Basics
  import opened FlarePatterns

  /** `k` consecutive Step pulses from cursor `c`: all indices fired, in order, and the last cursor. */
  function StepRun(n: nat, steps: nat, c: nat, k: nat): Pulse
    requires steps > 0
    decreases k
  {
    if k == 0 then Pulse([], c)
    else
      var p := StepPulse(n, steps, c);
      var rest := StepRun(n, steps, p.cursor, k - 1);
      Pulse(p.fired + rest.fired, rest.cursor)
  }

  /** `k` consecutive Round pulses from cursor `c`. */
  function RoundRun(n: nat, c: nat, k: nat): Pulse
    requires n > 0
    decreases k
  {
    if k == 0 then Pulse([], c)
    else
      var p := RoundPulse(n, c);
      var rest := RoundRun(n, p.cursor, k - 1);
      Pulse(p.fired + rest.fired, rest.cursor)
  }

  /** `k` consecutive Win pulses from cursor `c`. */
  function WinRun(n: nat, c: int, k: nat): Pulse
    requires n >= 2 && c >= -1
    decreases k
  {
    if k == 0 then Pulse([], c)
    else
      var p := WinPulse(n, c);
      var rest := WinRun(n, p.cursor, k - 1);
      Pulse(p.fired + rest.fired, rest.cursor)
  }

  /** Taking the remainder of a summand first does not change the remainder of the sum. */
  lemma ModAddRem(a: int, b: int, m: int)
    requires m > 0
    ensures (a % m + b) % m == (a + b) % m
  {
    var q := (a + b) / m - a / m;
    assert a % m + b == q * m + (a + b) % m;
    ModUnique(a % m + b, m, q, (a + b) % m);
  }

  /** After `k` Step pulses from `c` the cursor is `(c + k) % steps`; from the
      initial cursor 0 the pulses use `1 % steps, 2 % steps, ...`. */
  lemma {:induction false} StepRunCursor(n: nat, steps: nat, c: nat, k: nat)
    requires steps > 0
    ensures StepRun(n, steps, c, k).cursor == if k == 0 then c else (c + k) % steps
    decreases k
  {
    if k > 1 {
      var c' := StepPulse(n, steps, c).cursor;
      StepRunCursor(n, steps, c', k - 1);
      ModAddRem(c + 1, k - 1, steps);
    }
  }

  /** An increasing sequence holds each of its values once. */
  lemma {:induction false} IncreasingCount(s: seq<int>, x: int)
    requires forall j, k :: 0 <= j < k < |s| ==> s[j] < s[k]
    ensures multiset(s)[x] == if x in s then 1 else 0
  {
    if |s| > 0 {
      assert s == [s[0]] + s[1..];
      IncreasingCount(s[1..], x);
      if x == s[0] {
        assert x !in s[1..];
      }
    }
  }

  /** How many pulses after the one from cursor `c` flare `x` is reached: `0` when
      the very next pulse fires it. */
  function Distance(x: int, c: int, steps: nat): int
    requires steps > 0
  {
    (x % steps - c - 1) % steps
  }

  /** Moving the cursor from `c` to `(c + 1) % m` moves every flare one pulse closer:
      flare `x` is fired by the next pulse exactly when it is `0` pulses away, and
      otherwise its distance drops by one (wrapping from `0` to `m - 1`). */
  lemma PulseDistance(x: int, c: int, m: nat)
    requires m > 0 && 0 <= c < m
    ensures x % m == (c + 1) % m <==> Distance(x, c, m) == 0
    ensures Distance(x, (c + 1) % m, m) == if Distance(x, c, m) == 0 then m - 1 else Distance(x, c, m) - 1
  {
    var r := x % m;
    ModPred(r - c - 1, m);
    if c < m - 1 {
      ModSmall(c + 1, m);
      if r - c - 1 >= 0 {
        ModSmall(r - c - 1, m);
      } else {
        ModUnique(r - c - 1, m, -1, r - c - 1 + m);
      }
    } else {
      ModUnique(c + 1, m, 1, 0);
      ModAddModulus(r - m, m);
      ModAddModulus(r - c - 2, m);
      ModSmall(r, m);
    }
  }

  /** Within one cycle, a flare `x` is fired once by the first `k` Step pulses when
      it is fewer than `k` pulses away from the cursor, and not at all otherwise. */
  lemma {:induction false} StepRunCount(n: nat, steps: nat, c: nat, k: nat, x: int)
    requires steps > 0 && c < steps && k <= steps && 0 <= x < n
    ensures Occurrences(StepRun(n, steps, c, k).fired, x) == if Distance(x, c, steps) < k then 1 else 0
    decreases k
  {
    if k > 0 {
      var p := StepPulse(n, steps, c);
      var rest := StepRun(n, steps, p.cursor, k - 1).fired;
      StepRunCount(n, steps, p.cursor, k - 1, x);
      StepPulseCount(n, steps, c, x);
      PulseDistance(x, c, steps);
      assert StepRun(n, steps, c, k).fired == p.fired + rest;
      OccurrencesAppend(p.fired, rest, x);
    }
  }

  /** One Step pulse fires flare `x` once when it is `0` pulses away, and not otherwise. */
  lemma StepPulseCount(n: nat, steps: nat, c: nat, x: int)
    requires steps > 0 && c < steps && 0 <= x < n
    ensures StepPulse(n, steps, c).cursor == (c + 1) % steps
    ensures Occurrences(StepPulse(n, steps, c).fired, x) == if Distance(x, c, steps) == 0 then 1 else 0
  {
    var p := StepPulse(n, steps, c);
    IncreasingCount(p.fired, x);
    OccurrencesIsMultiplicity(p.fired, x);
    PulseDistance(x, c, steps);
  }

  /** Every index a Step run fires is a flare index. */
  lemma {:induction false} StepRunBounds(n: nat, steps: nat, c: nat, k: nat)
    requires steps > 0
    ensures forall y :: y in StepRun(n, steps, c, k).fired ==> 0 <= y < n
    decreases k
  {
    if k > 0 {
      StepRunBounds(n, steps, StepPulse(n, steps, c).cursor, k - 1);
    }
  }

  /** Over `steps` consecutive Step pulses, from any cursor, every flare in `[0, n)`
      fires exactly once and nothing else fires. */
  lemma StepCover(n: nat, steps: nat, c: nat)
    requires steps > 0 && c < steps
    ensures forall x :: multiset(StepRun(n, steps, c, steps).fired)[x] == if 0 <= x < n then 1 else 0
  {
    StepRunBounds(n, steps, c, steps);
    forall x: int
      ensures multiset(StepRun(n, steps, c, steps).fired)[x] == if 0 <= x < n then 1 else 0
    {
      if 0 <= x < n {
        StepRunCount(n, steps, c, steps, x);
        OccurrencesIsMultiplicity(StepRun(n, steps, c, steps).fired, x);
      } else {
        assert x !in StepRun(n, steps, c, steps).fired;
      }
    }
  }

  /** A Round pulse is a Step pulse whose step is the whole flare count. */
  lemma {:induction false} RoundRunIsStepRun(n: nat, c: nat, k: nat)
    requires n > 0
    ensures RoundRun(n, c, k) == StepRun(n, n, c, k)
    decreases k
  {
    if k > 0 {
      var p := RoundPulse(n, c);
      assert StepFire(n, n, p.cursor) == [p.cursor] + StepFire(n, n, p.cursor + n);
      assert StepPulse(n, n, c) == p;
      RoundRunIsStepRun(n, p.cursor, k - 1);
    }
  }

  /** After `k` Round pulses from `c` the cursor is `(c + k) % n`; from the initial
      cursor 0 the flares fired are `1 % n, 2 % n, ...`. */
  lemma RoundRunCursor(n: nat, c: nat, k: nat)
    requires n > 0
    ensures RoundRun(n, c, k).cursor == if k == 0 then c else (c + k) % n
  {
    RoundRunIsStepRun(n, c, k);
    StepRunCursor(n, n, c, k);
  }

  /** Over `n` consecutive Round pulses, from any cursor, every flare fires exactly once. */
  lemma RoundCover(n: nat, c: nat)
    requires n > 0 && c < n
    ensures forall x :: multiset(RoundRun(n, c, n).fired)[x] == if 0 <= x < n then 1 else 0
  {
    RoundRunIsStepRun(n, c, n);
    StepCover(n, n, c);
  }

  /** After `k` Win pulses from `c` the cursor is `(c + k) % (n / 2)`; from the initial
      cursor -1 the pulses use `0, 1, ..., n / 2 - 1` and wrap. */
  lemma {:induction false} WinRunCursor(n: nat, c: int, k: nat)
    requires n >= 2 && c >= -1
    ensures WinRun(n, c, k).cursor == if k == 0 then c else (c + k) % (n / 2)
    decreases k
  {
    if k > 1 {
      var c' := WinPulse(n, c).cursor;
      WinRunCursor(n, c', k - 1);
      ModAddRem(c + 1, k - 1, n / 2);
    }
  }

  /** Every index a Win run fires is a flare index, and for an odd flare count the
      middle flare `n / 2` is never among them. */
  lemma {:induction false} WinRunBounds(n: nat, c: int, k: nat)
    requires n >= 2 && c >= -1
    ensures forall y :: y in WinRun(n, c, k).fired ==> 0 <= y < n
    ensures n % 2 == 1 ==> n / 2 !in WinRun(n, c, k).fired
    decreases k
  {
    if k > 0 {
      WinRunBounds(n, WinPulse(n, c).cursor, k - 1);
    }
  }

  /** Each fired index `j` followed by its mirror `n - 1 - j`. */
  function Mirror(n: nat, s: seq<int>): seq<int>
  {
    if |s| == 0 then [] else [s[0], (n - 1) - s[0]] + Mirror(n, s[1..])
  }

  /** How many times `x` occurs in `s`. */
  function Occurrences(s: seq<int>, x: int): nat
  {
    if |s| == 0 then 0 else (if s[0] == x then 1 else 0) + Occurrences(s[1..], x)
  }

  /** Occurrences is the multiplicity in the multiset of the sequence. */
  lemma {:induction false} OccurrencesIsMultiplicity(s: seq<int>, x: int)
    ensures multiset(s)[x] == Occurrences(s, x)
  {
    if |s| > 0 {
      OccurrencesIsMultiplicity(s[1..], x);
      assert s == [s[0]] + s[1..];
    }
  }

  /** Occurrences in a concatenation add up. */
  lemma {:induction false} OccurrencesAppend(a: seq<int>, b: seq<int>, x: int)
    ensures Occurrences(a + b, x) == Occurrences(a, x) + Occurrences(b, x)
  {
    if |a| > 0 {
      OccurrencesAppend(a[1..], b, x);
      assert (a + b)[1..] == a[1..] + b;
    } else {
      assert a + b == b;
    }
  }

  /** Counting in a mirrored sequence, on Occurrences. */
  lemma {:induction false} MirrorOccurrences(n: nat, s: seq<int>, x: int)
    ensures Occurrences(Mirror(n, s), x) == Occurrences(s, x) + Occurrences(s, (n - 1) - x)
  {
    if |s| > 0 {
      MirrorOccurrences(n, s[1..], x);
      assert Mirror(n, s)[1..][1..] == Mirror(n, s[1..]);
    }
  }

  /** Flare `x` occurs in a mirrored sequence as often as `x` and its mirror occur in the original. */
  lemma MirrorCount(n: nat, s: seq<int>, x: int)
    ensures multiset(Mirror(n, s))[x] == multiset(s)[x] + multiset(s)[(n - 1) - x]
  {
    MirrorOccurrences(n, s, x);
    OccurrencesIsMultiplicity(Mirror(n, s), x);
    OccurrencesIsMultiplicity(s, x);
    OccurrencesIsMultiplicity(s, (n - 1) - x);
  }

  /** The Round cursor over the first `n / 2` flares that a Win cursor corresponds to. */
  function HalfCursor(n: nat, c: int): nat
    requires n >= 2 && -1 <= c < n / 2
  {
    if c == -1 then n / 2 - 1 else c
  }

  /** A Win run fires the mirrored Round run over the first half of the flares; the
      initial cursor -1 behaves like the last cursor of that half. */
  lemma {:induction false} WinRunIsMirror(n: nat, c: int, k: nat)
    requires n >= 2 && -1 <= c < n / 2
    ensures WinRun(n, c, k).fired == Mirror(n, RoundRun(n / 2, HalfCursor(n, c), k).fired)
    decreases k
  {
    var h := n / 2;
    var c0 := HalfCursor(n, c);
    if k > 0 {
      var w := WinPulse(n, c);
      var p := RoundPulse(h, c0);
      ModUnique(h, h, 1, 0);
      ModSmall(0, h);
      assert w.cursor == p.cursor;
      WinRunIsMirror(n, w.cursor, k - 1);
      var rest := RoundRun(h, p.cursor, k - 1).fired;
      assert RoundRun(h, c0, k).fired == [p.cursor] + rest;
      assert ([p.cursor] + rest)[1..] == rest;
    }
  }

  /** Over `n / 2` consecutive Win pulses, from any cursor, every flare fires exactly
      once, except that for an odd flare count the middle flare `n / 2` never fires. */
  lemma WinCover(n: nat, c: int)
    requires n >= 2 && -1 <= c < n / 2
    ensures forall x :: multiset(WinRun(n, c, n / 2).fired)[x] ==
                        if 0 <= x < n && (n % 2 == 0 || x != n / 2) then 1 else 0
  {
    forall x: int
      ensures multiset(WinRun(n, c, n / 2).fired)[x] ==
              if 0 <= x < n && (n % 2 == 0 || x != n / 2) then 1 else 0
    {
      WinCoverAt(n, c, x);
    }
  }

  /** WinCover for one flare. */
  lemma WinCoverAt(n: nat, c: int, x: int)
    requires n >= 2 && -1 <= c < n / 2
    ensures multiset(WinRun(n, c, n / 2).fired)[x] ==
            if 0 <= x < n && (n % 2 == 0 || x != n / 2) then 1 else 0
  {
    var h := n / 2;
    var c0 := HalfCursor(n, c);
    var s := RoundRun(h, c0, h).fired;
    RoundCover(h, c0);
    WinRunIsMirror(n, c, h);
    MirrorCoverAt(n, s, WinRun(n, c, h).fired, x);
  }

  /** The mirror of a sequence holding each flare of the first half once holds every
      flare once, except the middle flare of an odd count. */
  lemma MirrorCoverAt(n: nat, s: seq<int>, w: seq<int>, x: int)
    requires n >= 2 && w == Mirror(n, s)
    requires forall z :: multiset(s)[z] == if 0 <= z < n / 2 then 1 else 0
    ensures multiset(w)[x] == if 0 <= x < n && (n % 2 == 0 || x != n / 2) then 1 else 0
  {
    MirrorCount(n, s, x);
    assert multiset(s)[(n - 1) - x] == if 0 <= (n - 1) - x < n / 2 then 1 else 0;
    HalvesSplit(n, x);
  }

  /** A flare lies in the first half or is the mirror of one there, never both; for an
      odd count the middle flare is neither. */
  lemma HalvesSplit(n: nat, x: int)
    requires n >= 2
    ensures (if 0 <= x < n / 2 then 1 else 0) + (if 0 <= (n - 1) - x < n / 2 then 1 else 0) ==
            if 0 <= x < n && (n % 2 == 0 || x != n / 2) then 1 else 0
  {
    assert n == 2 * (n / 2) + n % 2;
  }
}

=== FILE: flare_patterns.dfy ===
/** The four flare patterns, reduced to what one pulse of each does: which flare
    indices it fires and where it leaves its cursor. `n` is the number of flare
    animators. Every `%` in the patterns has a non-negative left operand, so C#'s
    truncating remainder and Dafny's Euclidean one agree.
 */
module FlarePatterns {
  import opened Basics

  /** A flare pattern with the parameters it was started with. */
  datatype Pattern =
    | Step(stepTime: real, steps: nat, duration: real)
    | Round(stepTime: real, duration: real)
    | Random(minTime: real, maxTime: real, numFlares: nat, duration: real)
    | Win(stepTime: real, duration: real)

  /** The random choices one pulse consumes; only the Random pattern uses them:
      the flare indices it draws and the wait it draws afterwards. */
  datatype Draw = Draw(picks: seq<int>, wait: real)

  /** What one pulse does: the flare indices fired, in order, and the next cursor. */
  datatype Pulse = Pulse(fired: seq<int>, cursor: int)

  /** The cursor a pattern's loop starts from. */
  function InitialCursor(p: Pattern): int {
    if p.Win? then -1 else 0
  }

  /** The flare count and parameters under which a pattern's pulse raises no fault. */
  predicate Configured(p: Pattern, n: nat) {
    match p
    case Step(_, steps, _) => steps > 0
    case Round(_, _) => n > 0
    case Random(_, _, numFlares, _) => n > 0 || numFlares == 0
    case Win(_, _) => n >= 2
  }

  /** The cursor values a running task of pattern `p` can hold. */
  predicate CursorOk(p: Pattern, n: nat, c: int) {
    match p
    case Step(_, steps, _) => 0 <= c < steps
    case Round(_, _) => 0 <= c < n
    case Random(_, _, _, _) => c == 0
    case Win(_, _) => -1 <= c < n / 2
  }

  /** The random choices are ones Unity can make for a pulse of `p`. */
  predicate DrawOk(p: Pattern, n: nat, d: Draw) {
    match p
    case Random(minTime, maxTime, numFlares, _) =>
      && |d.picks| == numFlares
      && (forall k :: 0 <= k < |d.picks| ==> IntDraw(0, n, d.picks[k]))
      && Between(minTime, maxTime, d.wait)
    case _ => true
  }

  /** How long the task waits after a pulse before resuming its loop. */
  function WaitAfter(p: Pattern, d: Draw): real {
    match p
    case Step(stepTime, _, _) => stepTime
    case Round(stepTime, _) => stepTime
    case Random(_, _, _, _) => d.wait
    case Win(stepTime, _) => stepTime
  }

  /** The inner loop of a Step pulse: indices `i, i + steps, i + 2 * steps, ...` below `n`. */
  function StepFire(n: nat, steps: nat, i: nat): (r: seq<int>)
    requires steps > 0
    ensures forall k :: 0 <= k < |r| ==> i <= r[k] < n
    ensures forall j, k :: 0 <= j < k < |r| ==> r[j] < r[k]
    decreases n - i
  {
    if i >= n then [] else [i] + StepFire(n, steps, i + steps)
  }

  /** `x` is fired by the inner loop from `i` exactly when it lies in `[i, n)` and
      has the residue of `i`. */
  lemma {:induction false} StepFireMember(n: nat, steps: nat, i: nat, x: int)
    requires steps > 0
    ensures x in StepFire(n, steps, i) <==> i <= x < n && x % steps == i % steps
    decreases n - i
  {
    if i < n {
      StepFireMember(n, steps, i + steps, x);
      ModAddModulus(i, steps);
      if i < x && x % steps == i % steps {
        ResidueGap(i, x, steps);
      }
    }
  }

  /** One pulse of StepFlares: advance the cursor modulo `steps`, then fire every
      flare whose index has the new cursor as its residue. */
  function StepPulse(n: nat, steps: nat, cursor: int): (r: Pulse)
    requires steps > 0 && cursor >= 0
    ensures 0 <= r.cursor < steps && r.cursor == (cursor + 1) % steps
    ensures forall x :: x in r.fired <==> 0 <= x < n && x % steps == r.cursor
    ensures forall j, k :: 0 <= j < k < |r.fired| ==> r.fired[j] < r.fired[k]
  {
    var c := (cursor + 1) % steps;
    StepFireMembers(n, steps, c);
    Pulse(StepFire(n, steps, c), c)
  }

  /** The membership fact of StepFire for every index at once, for a cursor in range. */
  lemma StepFireMembers(n: nat, steps: nat, c: nat)
    requires 0 <= c < steps
    ensures forall x :: x in StepFire(n, steps, c) <==> 0 <= x < n && x % steps == c
  {
    ModSmall(c, steps);
    forall x: int
      ensures x in StepFire(n, steps, c) <==> 0 <= x < n && x % steps == c
    {
      StepFireMember(n, steps, c, x);
    }
  }

  /** One pulse of RoundFlares: advance the cursor modulo `n` and fire that one flare. */
  function RoundPulse(n: nat, cursor: int): (r: Pulse)
    requires n > 0 && cursor >= 0
    ensures 0 <= r.cursor < n && r.cursor == (cursor + 1) % n
    ensures r.fired == [r.cursor]
  {
    var c := (cursor + 1) % n;
    Pulse([c], c)
  }

  /** One pulse of WinFlares: advance the cursor modulo `n / 2` and fire the
      symmetric pair `(c, n - 1 - c)`. */
  function WinPulse(n: nat, cursor: int): (r: Pulse)
    requires n >= 2 && cursor >= -1
    ensures 0 <= r.cursor < n / 2 && r.cursor == (cursor + 1) % (n / 2)
    ensures |r.fired| == 2 && r.fired[0] == r.cursor && r.fired[0] + r.fired[1] == n - 1
    ensures 0 <= r.fired[0] < r.fired[1] < n
    ensures n % 2 == 1 ==> n / 2 !in r.fired
  {
    var c := (cursor + 1) % (n / 2);
    Pulse([c, (n - 1) - c], c)
  }

  /** One pulse of RandomFlares: fire the `numFlares` drawn indices; the cursor is unused. */
  function RandomPulse(n: nat, numFlares: nat, cursor: int, d: Draw): (r: Pulse)
    requires n > 0 || numFlares == 0
    requires |d.picks| == numFlares
    requires forall k :: 0 <= k < |d.picks| ==> IntDraw(0, n, d.picks[k])
    ensures |r.fired| == numFlares
    ensures forall k :: 0 <= k < |r.fired| ==> 0 <= r.fired[k] < n
    ensures r.fired == d.picks
    ensures r.cursor == cursor
  {
    assert forall k :: 0 <= k < |d.picks| ==> 0 <= d.picks[k] < n by {
      forall k | 0 <= k < |d.picks| ensures 0 <= d.picks[k] < n {
        assert IntDraw(0, n, d.picks[k]);
      }
    }
    Pulse(d.picks, cursor)
  }

  /** One pulse of any pattern, raising the fault the C# raises when the
      configuration cannot support it: a zero divisor for Step, Round and Win, an
      out-of-range index for Random. */
  function Fire(p: Pattern, n: nat, cursor: int, d: Draw): (r: Result<Pulse>)
    requires cursor >= InitialCursor(p) && DrawOk(p, n, d)
    ensures r.Ok? <==> Configured(p, n)
    ensures r.Err? && !p.Random? ==> r.fault == DivideByZero
    ensures r.Err? && p.Random? ==> r.fault == IndexOutOfRange
    ensures r.Ok? ==> forall k :: 0 <= k < |r.value.fired| ==> 0 <= r.value.fired[k] < n
    ensures r.Ok? && CursorOk(p, n, cursor) ==> CursorOk(p, n, r.value.cursor)
  {
    match p
    case Step(_, steps, _) =>
      if steps == 0 then Err(DivideByZero) else Ok(StepPulse(n, steps, cursor))
    case Round(_, _) =>
      if n == 0 then Err(DivideByZero) else Ok(RoundPulse(n, cursor))
    case Win(_, _) =>
      if n / 2 == 0 then Err(DivideByZero) else Ok(WinPulse(n, cursor))
    case Random(_, _, numFlares, _) =>
      if exists k :: 0 <= k < |d.picks| && !(0 <= d.picks[k] < n) then Err(IndexOutOfRange)
      else
        assert 0 < |d.picks| ==> IntDraw(0, n, d.picks[0]);
        Ok(RandomPulse(n, numFlares, cursor, d))
  }

  /** The first pulse of a freshly started task: Step and Round advance before they
      fire, so they start at `1 % m`; Win starts from -1 and so fires flare 0 and the
      last flare. */
  lemma FirstPulse(p: Pattern, n: nat, d: Draw)
    requires Configured(p, n) && DrawOk(p, n, d)
    ensures p.Step? ==>
              && Fire(p, n, InitialCursor(p), d).value.cursor == 1 % p.steps
              && forall x :: x in Fire(p, n, InitialCursor(p), d).value.fired <==> 0 <= x < n && x % p.steps == 1 % p.steps
    ensures p.Round? ==> Fire(p, n, InitialCursor(p), d).value.fired == [1 % n]
    ensures p.Win? ==> Fire(p, n, InitialCursor(p), d).value.fired == [0, n - 1]
    ensures p.Random? ==> Fire(p, n, InitialCursor(p), d).value.fired == d.picks
  {
    if p.Win? {
      ModSmall(0, n / 2);
    }
  }

  /** Eight flares stepped by three: from cursor 1 the pulse fires flares 2 and 5. */
  lemma StepEightByThree()
    ensures StepPulse(8, 3, 1) == Pulse([2, 5], 2)
  {
    assert StepFire(8, 3, 8) == [];
    assert StepFire(8, 3, 5) == [5];
    assert StepFire(8, 3, 2) == [2, 5];
  }
}

=== FILE: flare_slot.dfy ===
/** The flare-coroutine field as a single task slot. A task is the pattern loop
    `while (now < start + duration) { pulse; wait }` followed by clearing the field;
    each resumption of the loop is one `Advance`.
 */
module FlareSlot {
  import opened Basics
  import opened Effects
  import opened FlarePatterns

  /** A running flare coroutine: its pattern, the time its loop stops
      (`start + duration`), its cursor, and when its current wait ends. */
  datatype Task = Task(pattern: Pattern, deadline: real, cursor: int, resumeAt: real)

  /** The flare-coroutine field: empty, or the one running task. */
  type Slot = Option<Task>

  /** A new slot together with the effects logged on the way. */
  datatype Transition = Transition(slot: Slot, effects: seq<Effect>)

  /** A task that can pulse without a fault and whose cursor is one its pattern reaches. */
  predicate TaskOk(t: Task, n: nat) {
    Configured(t.pattern, n) && CursorOk(t.pattern, n, t.cursor)
  }

  predicate SlotOk(s: Slot, n: nat) {
    s.Some? ==> TaskOk(s.value, n)
  }

  /** Every logged effect is a flare trigger on one of the `n` flare animators. */
  predicate FlaresInRange(es: seq<Effect>, n: nat) {
    forall k :: 0 <= k < |es| ==> es[k].Flare? && 0 <= es[k].index < n
  }

  /** The pulse the task's pattern makes from its current cursor. */
  function NextPulse(t: Task, n: nat, d: Draw): (p: Pulse)
    requires TaskOk(t, n) && DrawOk(t.pattern, n, d)
    ensures CursorOk(t.pattern, n, p.cursor)
    ensures forall k :: 0 <= k < |p.fired| ==> 0 <= p.fired[k] < n
  {
    Fire(t.pattern, n, t.cursor, d).value
  }

  /** The task resumed at time `now`: still waiting before `resumeAt`; otherwise it
      pulses and waits again while `now` is before its deadline, and clears the slot
      once it is not. */
  function Advance(t: Task, now: real, n: nat, d: Draw): (r: Transition)
    requires TaskOk(t, n) && DrawOk(t.pattern, n, d)
    ensures SlotOk(r.slot, n) && FlaresInRange(r.effects, n)
    ensures r.slot.None? <==> t.resumeAt <= now && t.deadline <= now
    ensures r.slot.Some? ==> r.slot.value.pattern == t.pattern && r.slot.value.deadline == t.deadline
    ensures now < t.resumeAt ==> r == Transition(Some(t), [])
    ensures t.resumeAt <= now < t.deadline ==>
              && r.effects == Flares(NextPulse(t, n, d).fired)
              && r.slot.value.cursor == NextPulse(t, n, d).cursor
              && r.slot.value.resumeAt == now + WaitAfter(t.pattern, d)
    ensures r.effects != [] ==> t.resumeAt <= now < t.deadline
  {
    if now < t.resumeAt then Transition(Some(t), [])
    else if now < t.deadline then
      var p := NextPulse(t, n, d);
      Transition(Some(t.(cursor := p.cursor, resumeAt := now + WaitAfter(t.pattern, d))), Flares(p.fired))
    else Transition(None, [])
  }

  /** StartCoroutine on a pattern at time `now`: the loop runs at once up to its first
      wait, so a task with a positive duration fires its first pulse immediately. */
  function Start(p: Pattern, now: real, n: nat, d: Draw): (r: Transition)
    requires Configured(p, n) && DrawOk(p, n, d) && p.duration > 0.0
    ensures SlotOk(r.slot, n) && FlaresInRange(r.effects, n)
    ensures r.slot.Some?
    ensures r.slot.value.pattern == p && r.slot.value.deadline == now + p.duration
    ensures r.slot.value.resumeAt == now + WaitAfter(p, d)
    ensures r.slot.value.cursor == Fire(p, n, InitialCursor(p), d).value.cursor
    ensures r.effects == Flares(Fire(p, n, InitialCursor(p), d).value.fired)
  {
    Advance(Task(p, now + p.duration, InitialCursor(p), now), now, n, d)
  }

  /** Stop whatever task the slot holds and start `p` in its place. */
  function Preempt(s: Slot, p: Pattern, now: real, n: nat, d: Draw): (r: Transition)
    requires Configured(p, n) && DrawOk(p, n, d) && p.duration > 0.0
    ensures SlotOk(r.slot, n) && FlaresInRange(r.effects, n)
    ensures r.slot.Some? && r.slot.value.pattern == p && r.slot.value.deadline == now + p.duration
    ensures r.slot.value.resumeAt == now + WaitAfter(p, d)
    ensures r.slot.value.cursor == Fire(p, n, InitialCursor(p), d).value.cursor
    ensures r.effects == Flares(Fire(p, n, InitialCursor(p), d).value.fired)
  {
    Start(p, now, n, d)
  }

  /** The pattern Update starts for the draws `Random.Range(0, 3)` and `Random.Range(5, 8)`. */
  function Chosen(pick: int, duration: int): Pattern
    requires IntDraw(0, 3, pick)
  {
    if pick == 0 then Step(0.5, 3, duration as real)
    else if pick == 1 then Round(0.1, duration as real)
    else Random(0.2, 0.4, 2, duration as real)
  }

  /** Update's flare block: only an empty slot is filled, with a Step, Round or Random
      task lasting 5, 6 or 7 seconds; an occupied slot is left alone. */
  function FillIfEmpty(s: Slot, now: real, n: nat, pick: int, duration: int, d: Draw): (r: Transition)
    requires SlotOk(s, n)
    requires IntDraw(0, 3, pick) && IntDraw(5, 8, duration)
    requires s.None? ==> Configured(Chosen(pick, duration), n) && DrawOk(Chosen(pick, duration), n, d)
    ensures SlotOk(r.slot, n) && FlaresInRange(r.effects, n)
    ensures s.Some? ==> r == Transition(s, [])
    ensures s.None? ==> r.slot.Some?
    ensures s.None? ==> var p := r.slot.value.pattern;
              && (p.Step? || p.Round? || p.Random?)
              && p.duration in {5.0, 6.0, 7.0}
              && r.slot.value.deadline == now + p.duration
    // the three cases of the switch, with the C#'s constant parameters
    ensures s.None? && pick == 0 ==> r.slot.value.pattern == Step(0.5, 3, duration as real)
    ensures s.None? && pick == 1 ==> r.slot.value.pattern == Round(0.1, duration as real)
    ensures s.None? && pick == 2 ==> r.slot.value.pattern == Random(0.2, 0.4, 2, duration as real)
    // the new task runs to its first wait at once
    ensures s.None? ==> var p := Chosen(pick, duration);
              && r.effects == Flares(Fire(p, n, InitialCursor(p), d).value.fired)
              && r.slot.value.cursor == Fire(p, n, InitialCursor(p), d).value.cursor
              && r.slot.value.resumeAt == now + WaitAfter(p, d)
  {
    if s.Some? then Transition(s, [])
    else Start(Chosen(pick, duration), now, n, d)
  }

  /** The running task, if any, resumed at time `now`. */
  function Resume(s: Slot, now: real, n: nat, d: Draw): (r: Transition)
    requires SlotOk(s, n)
    requires s.Some? ==> DrawOk(s.value.pattern, n, d)
    ensures SlotOk(r.slot, n) && FlaresInRange(r.effects, n)
    ensures s.None? ==> r == Transition(None, [])
    ensures r.slot.Some? ==> s.Some? && r.slot.value.pattern == s.value.pattern
    // the task is cleared exactly once it is due and its deadline has passed
    ensures s.Some? ==> (r.slot.None? <==> s.value.resumeAt <= now && s.value.deadline <= now)
    ensures s.Some? && now < s.value.resumeAt ==> r == Transition(s, [])
    ensures s.Some? && s.value.resumeAt <= now < s.value.deadline ==>
              && r.effects == Flares(NextPulse(s.value, n, d).fired)
              && r.slot.value.cursor == NextPulse(s.value, n, d).cursor
              && r.slot.value.resumeAt == now + WaitAfter(s.value.pattern, d)
    ensures r.effects != [] ==> s.Some? && s.value.resumeAt <= now < s.value.deadline
  {
    if s.None? then Transition(None, []) else Advance(s.value, now, n, d)
  }
}

=== FILE: music_timer.dfy ===
/** Background-music scheduling: at most one clip is current; a new clip starts once
    the idle gap has passed (or at once when a game starts), and when a clip's time is
    over the next start is put off by its length plus a random gap.
 */
module MusicTimer {
  import opened Basics
  import opened Effects

  /** The music library and the minimum gaps of attract mode and of a running game. */
  datatype MusicConfig = MusicConfig(clips: seq<Clip>, minAttractMusicTime: real, minMusicTime: real)

  /** The music fields: the current clip, when it stops (`playMusicTime`), when the
      next may start (`nextPlayMusicTime`), and whether a game is running. */
  datatype Music = Music(current: Option<Clip>, playUntil: real, nextPlay: real, playingGame: bool)

  /** A new music state with the effects logged on the way. */
  datatype MusicStep = MusicStep(music: Music, effects: seq<Effect>)

  /** The minimum gap that applies in the given mode. */
  function MinGap(cfg: MusicConfig, playingGame: bool): real {
    if playingGame then cfg.minMusicTime else cfg.minAttractMusicTime
  }

  /** `jitter` is a gap `Random.Range(min, min * 1.5)` can draw for the given mode. */
  predicate JitterOk(cfg: MusicConfig, playingGame: bool, jitter: real) {
    Between(MinGap(cfg, playingGame), MinGap(cfg, playingGame) * 1.5, jitter)
  }

  /** `k` is an index `Random.Range(0, clips.Length)` can draw that names a clip. */
  predicate ClipDrawOk(cfg: MusicConfig, k: int) {
    IntDraw(0, |cfg.clips|, k) && k < |cfg.clips|
  }

  /** Start(): no clip, attract mode, the first start put off by an attract gap. */
  function Init(cfg: MusicConfig, now: real, jitter: real): (m: Music)
    requires JitterOk(cfg, false, jitter)
    ensures m.current.None? && !m.playingGame
    ensures Between(cfg.minAttractMusicTime, cfg.minAttractMusicTime * 1.5, m.nextPlay - now)
  {
    Music(None, 0.0, now + jitter, false)
  }

  /** Play library clip `k` from time `now`. */
  function Play(cfg: MusicConfig, m: Music, now: real, k: int): (r: MusicStep)
    requires ClipDrawOk(cfg, k)
    ensures r.music.current == Some(cfg.clips[k])
    ensures r.music.playUntil == now + cfg.clips[k].length
    ensures r.music.nextPlay == m.nextPlay && r.music.playingGame == m.playingGame
    ensures r.effects == [PlayAudio(MusicClip(cfg.clips[k]))]
  {
    var clip := cfg.clips[k];
    MusicStep(m.(current := Some(clip), playUntil := now + clip.length), [PlayAudio(MusicClip(clip))])
  }

  /** Update's music blocks at time `now`: start a clip when none is current and the
      gap has passed; then, if the current clip's time is over, drop it and put the
      next start off by its length plus the mode's gap. */
  function Update(cfg: MusicConfig, m: Music, now: real, k: int, jitter: real): (r: MusicStep)
    requires m.current.None? && now > m.nextPlay ==> ClipDrawOk(cfg, k)
    requires JitterOk(cfg, m.playingGame, jitter)
    ensures r.music.playingGame == m.playingGame
    // a clip is started only when none is current, and then it is library clip `k`
    ensures r.effects != [] <==> m.current.None? && now > m.nextPlay
    ensures r.effects != [] ==>
              && r.effects == [PlayAudio(MusicClip(cfg.clips[k]))]
              && r.music == m.(current := Some(cfg.clips[k]), playUntil := now + cfg.clips[k].length)
    // a current clip whose time is over is dropped and the next start put off
    ensures m.current.Some? && now > m.playUntil ==>
              && r.music.current.None? && r.music.playUntil == m.playUntil
              && Between(MinGap(cfg, m.playingGame), MinGap(cfg, m.playingGame) * 1.5,
                         r.music.nextPlay - now - m.current.value.length)
    // otherwise nothing changes
    ensures m.current.Some? && now <= m.playUntil ==> r == MusicStep(m, [])
    ensures m.current.None? && now <= m.nextPlay ==> r == MusicStep(m, [])
  {
    var s := if m.current.None? && now > m.nextPlay then Play(cfg, m, now, k) else MusicStep(m, []);
    var m1 := s.music;
    if m1.current.Some? && now > m1.playUntil then
      MusicStep(m1.(current := None, nextPlay := now + m1.current.value.length + jitter), s.effects)
    else s
  }

  /** OnStartGame at time `now`: game mode, and a clip at once if none is current. */
  function StartGame(cfg: MusicConfig, m: Music, now: real, k: int): (r: MusicStep)
    requires m.current.None? ==> ClipDrawOk(cfg, k)
    ensures r.music.playingGame
    ensures m.current.Some? ==> r == MusicStep(m.(playingGame := true), [])
    ensures m.current.None? ==>
              && r.music.current == Some(cfg.clips[k])
              && r.music.playUntil == now + cfg.clips[k].length
              && r.music.nextPlay == m.nextPlay
              && r.effects == [PlayAudio(MusicClip(cfg.clips[k]))]
  {
    var g := m.(playingGame := true);
    if g.current.None? then Play(cfg, g, now, k) else MusicStep(g, [])
  }

  /** OnStopGame: attract mode; nothing else changes and a current clip plays on. */
  function StopGame(m: Music): (r: Music)
    ensures !r.playingGame
    ensures r.current == m.current && r.playUntil == m.playUntil && r.nextPlay == m.nextPlay
  {
    m.(playingGame := false)
  }

  /** Something the music fields react to, with its time and random draws. */
  datatype MusicEvent =
    | Frame(now: real, clip: int, jitter: real)
    | GameStarted(now: real, clip: int)
    | GameStopped

  /** A clip plays from `start` until `until`. */
  datatype Window = Window(start: real, until: real)

  /** The draws of `e` are ones Unity can make in state `m`. */
  predicate EventOk(cfg: MusicConfig, m: Music, e: MusicEvent) {
    match e
    case Frame(now, k, jitter) =>
      (m.current.None? && now > m.nextPlay ==> ClipDrawOk(cfg, k)) && JitterOk(cfg, m.playingGame, jitter)
    case GameStarted(_, k) => m.current.None? ==> ClipDrawOk(cfg, k)
    case GameStopped => true
  }

  function Apply(cfg: MusicConfig, m: Music, e: MusicEvent): MusicStep
    requires EventOk(cfg, m, e)
  {
    match e
    case Frame(now, k, jitter) => Update(cfg, m, now, k, jitter)
    case GameStarted(now, k) => StartGame(cfg, m, now, k)
    case GameStopped => MusicStep(StopGame(m), [])
  }

  /** The clock after `e`; stopping a game carries no time of its own. */
  function EventTime(e: MusicEvent, clock: real): real {
    match e
    case Frame(now, _, _) => now
    case GameStarted(now, _) => now
    case GameStopped => clock
  }

  /** The playback window `e` opens at time `now`: one if it starts a clip, none otherwise. */
  function Opened(now: real, e: Effect): seq<Window> {
    if StartsMusic(e) then [Window(now, now + e.sound.clip.length)] else []
  }

  /** The playback windows of the clips started by some effects at time `now`. */
  function Windows(now: real, es: seq<Effect>): seq<Window> {
    if |es| == 0 then [] else Opened(now, es[0]) + Windows(now, es[1..])
  }

  /** The windows of a concatenation are the windows of its parts. */
  lemma {:induction false} WindowsAppend(now: real, a: seq<Effect>, b: seq<Effect>)
    ensures Windows(now, a + b) == Windows(now, a) + Windows(now, b)
  {
    if |a| == 0 {
      assert a + b == b;
    } else {
      var h := Opened(now, a[0]);
      WindowsAppend(now, a[1..], b);
      assert (a + b)[0] == a[0] && (a + b)[1..] == a[1..] + b;
      assert Windows(now, a + b) == h + (Windows(now, a[1..]) + Windows(now, b));
      assert h + (Windows(now, a[1..]) + Windows(now, b)) == (h + Windows(now, a[1..])) + Windows(now, b);
    }
  }

  /** Effects that start no clip open no window. */
  lemma {:induction false} WindowsNoMusic(now: real, es: seq<Effect>)
    requires NoMusic(es)
    ensures Windows(now, es) == []
  {
    if |es| > 0 {
      assert es[0] in es;
      assert forall e :: e in es[1..] ==> e in es;
      WindowsNoMusic(now, es[1..]);
    }
  }

  /** `evs` can happen from state `m` at time `clock`: time never runs backwards and
      every draw is one Unity can make. */
  predicate Runnable(cfg: MusicConfig, m: Music, clock: real, evs: seq<MusicEvent>)
    decreases |evs|
  {
    |evs| == 0 ||
    (&& EventTime(evs[0], clock) >= clock
     && EventOk(cfg, m, evs[0])
     && Runnable(cfg, Apply(cfg, m, evs[0]).music, EventTime(evs[0], clock), evs[1..]))
  }

  /** The playback windows of all clips started while `evs` happen. */
  function Replay(cfg: MusicConfig, m: Music, clock: real, evs: seq<MusicEvent>): seq<Window>
    requires Runnable(cfg, m, clock, evs)
    decreases |evs|
  {
    if |evs| == 0 then []
    else
      var t := EventTime(evs[0], clock);
      var r := Apply(cfg, m, evs[0]);
      Windows(t, r.effects) + Replay(cfg, r.music, t, evs[1..])
  }

  /** Each window ends before the next begins. */
  predicate Spaced(ws: seq<Window>) {
    forall k :: 0 <= k < |ws| - 1 ==> ws[k].until < ws[k + 1].start
  }

  /** The windows so far agree with the state at time `clock`: they are spaced, the
      current clip is the last window, and with no clip current the last window is
      already over. */
  predicate Tracks(m: Music, ws: seq<Window>, clock: real) {
    && Spaced(ws)
    && (m.current.Some? ==> |ws| > 0 && ws[|ws| - 1].until == m.playUntil)
    && (m.current.None? && |ws| > 0 ==> ws[|ws| - 1].until < clock)
  }

  /** One event keeps the windows in step with the state. */
  lemma ApplyTracks(cfg: MusicConfig, m: Music, clock: real, ws: seq<Window>, e: MusicEvent)
    requires Tracks(m, ws, clock) && EventOk(cfg, m, e) && EventTime(e, clock) >= clock
    ensures Tracks(Apply(cfg, m, e).music, ws + Windows(EventTime(e, clock), Apply(cfg, m, e).effects),
                   EventTime(e, clock))
  {
    var t := EventTime(e, clock);
    var r := Apply(cfg, m, e);
    if r.effects != [] {
      var c := r.music.current.value;
      assert r.effects == [PlayAudio(MusicClip(c))];
      assert Windows(t, r.effects) == [Window(t, t + c.length)];
      var ws' := ws + [Window(t, t + c.length)];
      assert forall k :: 0 <= k < |ws| ==> ws'[k] == ws[k];
    } else {
      assert Windows(t, r.effects) == [];
      assert ws + [] == ws;
    }
  }

  /** The music never overlaps: from a state the windows track, every window of the
      clips started by a run of events ends before the next one begins. */
  lemma {:induction false} NoOverlap(cfg: MusicConfig, m: Music, clock: real, ws: seq<Window>, evs: seq<MusicEvent>)
    requires Tracks(m, ws, clock) && Runnable(cfg, m, clock, evs)
    ensures Spaced(ws + Replay(cfg, m, clock, evs))
    decreases |evs|
  {
    if |evs| == 0 {
      assert ws + [] == ws;
    } else {
      var t := EventTime(evs[0], clock);
      var r := Apply(cfg, m, evs[0]);
      var ws' := ws + Windows(t, r.effects);
      ApplyTracks(cfg, m, clock, ws, evs[0]);
      NoOverlap(cfg, r.music, t, ws', evs[1..]);
      assert ws + Replay(cfg, m, clock, evs) == ws' + Replay(cfg, r.music, t, evs[1..]);
    }
  }

  /** From Start() on, no two clips ever play at the same time. */
  lemma NoOverlapFromStart(cfg: MusicConfig, now: real, jitter: real, evs: seq<MusicEvent>)
    requires JitterOk(cfg, false, jitter)
    requires Runnable(cfg, Init(cfg, now, jitter), now, evs)
    ensures Spaced(Replay(cfg, Init(cfg, now, jitter), now, evs))
  {
    NoOverlap(cfg, Init(cfg, now, jitter), now, [], evs);
    assert [] + Replay(cfg, Init(cfg, now, jitter), now, evs) == Replay(cfg, Init(cfg, now, jitter), now, evs);
  }
}

=== FILE: slot_machine_actions.dfy ===
/** The presentation component as a whole: the music fields and the flare slot,
    driven by the per-frame Update, the resumption of the flare coroutine, and the
    game events it subscribes to.
 */
module SlotMachineActions {
  import opened Basics
  import opened Effects
  import opened FlarePatterns
  import opened FlareSlot
  import MusicTimer
  import WinSequence

  /** The serialized configuration: the number of flare animators and the music setup. */
  datatype Config = Config(flareCount: nat, music: MusicTimer.MusicConfig)

  /** The component's mutable fields. */
  datatype Actions = Actions(music: MusicTimer.Music, flares: Slot)

  /** A new state with the effects logged on the way. */
  datatype Reaction = Reaction(state: Actions, effects: seq<Effect>)

  /** The random draws one Update consumes: the clip index and music gap, the
      pattern pick and duration, and the draws of a new task's first pulse. */
  datatype UpdateDraws = UpdateDraws(clip: int, jitter: real, pattern: int, duration: int, pulse: Draw)

  /** The state invariant: the task in the slot, if any, can pulse without a fault. */
  predicate Valid(cfg: Config, s: Actions) {
    SlotOk(s.flares, cfg.flareCount)
  }

  /** The draws of an Update are ones Unity can make in state `s`, and a task Update
      starts is one the flare count supports. */
  predicate UpdateDrawsOk(cfg: Config, s: Actions, now: real, d: UpdateDraws) {
    && (s.music.current.None? && now > s.music.nextPlay ==> MusicTimer.ClipDrawOk(cfg.music, d.clip))
    && MusicTimer.JitterOk(cfg.music, s.music.playingGame, d.jitter)
    && IntDraw(0, 3, d.pattern) && IntDraw(5, 8, d.duration)
    && (s.flares.None? ==>
          Configured(Chosen(d.pattern, d.duration), cfg.flareCount)
          && DrawOk(Chosen(d.pattern, d.duration), cfg.flareCount, d.pulse))
  }

  /** Start(): no flare task, no clip, and the first clip put off by an attract gap. */
  function Init(cfg: Config, now: real, jitter: real): (s: Actions)
    requires MusicTimer.JitterOk(cfg.music, false, jitter)
    ensures Valid(cfg, s) && s.flares.None? && s.music.current.None?
  {
    Actions(MusicTimer.Init(cfg.music, now, jitter), None)
  }

  /** Update at time `now`: the music blocks, then the flare block. */
  function Update(cfg: Config, s: Actions, now: real, d: UpdateDraws): (r: Reaction)
    requires Valid(cfg, s) && UpdateDrawsOk(cfg, s, now, d)
    ensures Valid(cfg, r.state) && r.state.flares.Some?
    ensures r.state.music.playingGame == s.music.playingGame
    ensures s.flares.Some? ==> r.state.flares == s.flares
    ensures forall e :: e in r.effects ==> e.PlayAudio? || (e.Flare? && 0 <= e.index < cfg.flareCount)
    ensures (exists e :: e in r.effects && e.PlayAudio?) ==> s.music.current.None?
    // the music blocks act as the music timer's frame, and log before the flare block
    ensures r.state.music == MusicTimer.Update(cfg.music, s.music, now, d.clip, d.jitter).music
    ensures r.state.flares == FillIfEmpty(s.flares, now, cfg.flareCount, d.pattern, d.duration, d.pulse).slot
    ensures r.effects == MusicTimer.Update(cfg.music, s.music, now, d.clip, d.jitter).effects
                         + FillIfEmpty(s.flares, now, cfg.flareCount, d.pattern, d.duration, d.pulse).effects
    ensures s.music.current.None? && now > s.music.nextPlay ==>
              r.effects[0] == PlayAudio(MusicClip(cfg.music.clips[d.clip]))
  {
    var m := MusicTimer.Update(cfg.music, s.music, now, d.clip, d.jitter);
    var f := FillIfEmpty(s.flares, now, cfg.flareCount, d.pattern, d.duration, d.pulse);
    Reaction(Actions(m.music, f.slot), m.effects + f.effects)
  }

  /** The flare coroutine resumed at time `now`. */
  function ResumeFlares(cfg: Config, s: Actions, now: real, d: Draw): (r: Reaction)
    requires Valid(cfg, s)
    requires s.flares.Some? ==> DrawOk(s.flares.value.pattern, cfg.flareCount, d)
    ensures Valid(cfg, r.state) && r.state.music == s.music
    ensures FlaresInRange(r.effects, cfg.flareCount)
    ensures s.flares.None? ==> r == Reaction(s, [])
    // an expired task is cleared; one not yet due is left alone
    ensures s.flares.Some? ==>
              (r.state.flares.None? <==> s.flares.value.resumeAt <= now && s.flares.value.deadline <= now)
    ensures s.flares.Some? && now < s.flares.value.resumeAt ==> r == Reaction(s, [])
    ensures r.effects != [] ==> s.flares.Some? && s.flares.value.resumeAt <= now < s.flares.value.deadline
    // a running task fires its next pulse and waits again
    ensures s.flares.Some? && s.flares.value.resumeAt <= now < s.flares.value.deadline ==>
              && r.effects == Flares(NextPulse(s.flares.value, cfg.flareCount, d).fired)
              && r.state.flares.value.cursor == NextPulse(s.flares.value, cfg.flareCount, d).cursor
              && r.state.flares.value.resumeAt == now + WaitAfter(s.flares.value.pattern, d)
  {
    var f := Resume(s.flares, now, cfg.flareCount, d);
    Reaction(s.(flares := f.slot), f.effects)
  }

  /** OnStartGame at time `now`: the flare slot is untouched. */
  function OnStartGame(cfg: Config, s: Actions, now: real, clip: int): (r: Reaction)
    requires Valid(cfg, s)
    requires s.music.current.None? ==> MusicTimer.ClipDrawOk(cfg.music, clip)
    ensures Valid(cfg, r.state) && r.state.flares == s.flares && r.state.music.playingGame
    ensures s.music.current.Some? ==> r.effects == [] && r.state.music == s.music.(playingGame := true)
    ensures s.music.current.None? ==> r.effects == [PlayAudio(MusicClip(cfg.music.clips[clip]))]
    ensures s.music.current.None? ==>
              && r.state.music.current == Some(cfg.music.clips[clip])
              && r.state.music.playUntil == now + cfg.music.clips[clip].length
              && r.state.music.nextPlay == s.music.nextPlay
  {
    var m := MusicTimer.StartGame(cfg.music, s.music, now, clip);
    Reaction(s.(music := m.music), m.effects)
  }

  /** OnStopGame: only the game flag changes. */
  function OnStopGame(s: Actions): (r: Actions)
    ensures !r.music.playingGame
    ensures r == s.(music := s.music.(playingGame := false))
  {
    s.(music := MusicTimer.StopGame(s.music))
  }

  /** OnSpinStart at time `now`: whatever ran before, the slot now holds a fresh
      Round task of 5 seconds; the music is untouched. */
  function OnSpinStart(cfg: Config, s: Actions, now: real): (r: Reaction)
    requires Valid(cfg, s) && cfg.flareCount > 0
    ensures Valid(cfg, r.state) && r.state.music == s.music
    ensures r.state.flares.Some? && r.state.flares.value.pattern == Round(0.1, 5.0)
    ensures r.state.flares.value.deadline == now + 5.0
    ensures r.effects == [Flare(1 % cfg.flareCount)]
    ensures r.state.flares.value.cursor == 1 % cfg.flareCount && r.state.flares.value.resumeAt == now + 0.1
  {
    var f := Preempt(s.flares, Round(0.1, 5.0), now, cfg.flareCount, Draw([], 0.0));
    Reaction(s.(flares := f.slot), f.effects)
  }

  /** OnSpinResults at time `now`: the win sequence's opening takes effect at once,
      its closing is due `waitTime` seconds later; the music is untouched. */
  function OnSpinResults(cfg: Config, s: Actions, now: real, result: int): (r: (Reaction, WinSequence.WinPlan))
    requires Valid(cfg, s)
    requires result >= 10 ==> cfg.flareCount >= 2
    ensures Valid(cfg, r.0.state) && r.0.state.music == s.music
    ensures r.1 == WinSequence.Run(result, s.flares, now, cfg.flareCount)
    ensures r.0.effects == r.1.opening && r.0.state.flares == r.1.slot
    ensures result < 10 ==> r.0.state == s
    ensures 10 <= result < 30 ==> r.0.state.flares.Some? && r.0.state.flares.value.pattern == Win(0.1, 3.0)
    ensures result >= 30 ==> r.0.state.flares.Some? && r.0.state.flares.value.pattern == Win(0.1, 5.0)
    ensures r.1.waitTime == if result < 10 then 1.0 else if result < 30 then 3.0 else 4.0
    ensures r.1.closing == WinSequence.Closing(result)
  {
    var plan := WinSequence.Run(result, s.flares, now, cfg.flareCount);
    (Reaction(s.(flares := plan.slot), plan.opening), plan)
  }

  /** Everything the component reacts to, with its time and random draws. */
  datatype Event =
    | Frame(now: real, draws: UpdateDraws)
    | FlaresResumed(now: real, pulse: Draw)
    | GameStarted(now: real, clip: int)
    | GameStopped
    | SpinStarted(now: real)
    | SpinResult(now: real, result: int)

  /** The draws of `e` are ones Unity can make in state `s`, and `e` asks nothing of
      the flare count that the C# would fault on. */
  predicate EventOk(cfg: Config, s: Actions, e: Event) {
    match e
    case Frame(now, d) => UpdateDrawsOk(cfg, s, now, d)
    case FlaresResumed(_, d) => s.flares.Some? ==> DrawOk(s.flares.value.pattern, cfg.flareCount, d)
    case GameStarted(_, k) => s.music.current.None? ==> MusicTimer.ClipDrawOk(cfg.music, k)
    case GameStopped => true
    case SpinStarted(_) => cfg.flareCount > 0
    case SpinResult(_, result) => result >= 10 ==> cfg.flareCount >= 2
  }

  /** One event; a spin result logs its opening (its closing holds no flare trigger). */
  function Apply(cfg: Config, s: Actions, e: Event): (r: Reaction)
    requires Valid(cfg, s) && EventOk(cfg, s, e)
    ensures Valid(cfg, r.state)
  {
    match e
    case Frame(now, d) => Update(cfg, s, now, d)
    case FlaresResumed(now, d) => ResumeFlares(cfg, s, now, d)
    case GameStarted(now, k) => OnStartGame(cfg, s, now, k)
    case GameStopped => Reaction(OnStopGame(s), [])
    case SpinStarted(now) => OnSpinStart(cfg, s, now)
    case SpinResult(now, result) => OnSpinResults(cfg, s, now, result).0
  }

  /** `evs` can happen one after another from state `s`. */
  predicate Runnable(cfg: Config, s: Actions, evs: seq<Event>)
    requires Valid(cfg, s)
    decreases |evs|
  {
    |evs| == 0 || (EventOk(cfg, s, evs[0]) && Runnable(cfg, Apply(cfg, s, evs[0]).state, evs[1..]))
  }

  /** All effects logged while `evs` happen, and the final state. */
  function Replay(cfg: Config, s: Actions, evs: seq<Event>): Reaction
    requires Valid(cfg, s) && Runnable(cfg, s, evs)
    decreases |evs|
  {
    if |evs| == 0 then Reaction(s, [])
    else
      var r := Apply(cfg, s, evs[0]);
      var rest := Replay(cfg, r.state, evs[1..]);
      Reaction(rest.state, r.effects + rest.effects)
  }

  /** Whatever the interleaving of frames, resumptions and game events, the state
      stays valid and every flare trigger logged names one of the flare animators. */
  lemma {:induction false} FlaresAlwaysInRange(cfg: Config, s: Actions, evs: seq<Event>)
    requires Valid(cfg, s) && Runnable(cfg, s, evs)
    ensures Valid(cfg, Replay(cfg, s, evs).state)
    ensures forall e :: e in Replay(cfg, s, evs).effects && e.Flare? ==> 0 <= e.index < cfg.flareCount
    decreases |evs|
  {
    if |evs| > 0 {
      var r := Apply(cfg, s, evs[0]);
      FlaresAlwaysInRange(cfg, r.state, evs[1..]);
      ApplyFlaresInRange(cfg, s, evs[0]);
    }
  }

  /** FlaresAlwaysInRange for a single event. */
  lemma ApplyFlaresInRange(cfg: Config, s: Actions, e: Event)
    requires Valid(cfg, s) && EventOk(cfg, s, e)
    ensures forall x :: x in Apply(cfg, s, e).effects && x.Flare? ==> 0 <= x.index < cfg.flareCount
  {
    match e
    case SpinResult(now, result) =>
      WinSequence.RunEffects(result, s.flares, now, cfg.flareCount);
    case _ =>
  }

  /** The clock after `e`; stopping a game carries no time of its own. */
  function EventTime(e: Event, clock: real): real {
    match e
    case Frame(now, _) => now
    case FlaresResumed(now, _) => now
    case GameStarted(now, _) => now
    case GameStopped => clock
    case SpinStarted(now) => now
    case SpinResult(now, _) => now
  }

  /** Time never runs backwards along `evs`, starting from `clock`. */
  predicate Monotone(clock: real, evs: seq<Event>)
    decreases |evs|
  {
    |evs| == 0 || (EventTime(evs[0], clock) >= clock && Monotone(EventTime(evs[0], clock), evs[1..]))
  }

  /** The playback windows of the music clips started while `evs` happen. */
  function MusicWindows(cfg: Config, s: Actions, clock: real, evs: seq<Event>): seq<MusicTimer.Window>
    requires Valid(cfg, s) && Runnable(cfg, s, evs)
    decreases |evs|
  {
    if |evs| == 0 then []
    else
      var t := EventTime(evs[0], clock);
      var r := Apply(cfg, s, evs[0]);
      MusicTimer.Windows(t, r.effects) + MusicWindows(cfg, r.state, t, evs[1..])
  }

  /** One event of the component keeps the record of playback windows in step with
      its music fields: frames and game events act on the music as the music timer
      does, and every other event leaves the music alone and starts no clip. */
  lemma ApplyTracksMusic(cfg: Config, s: Actions, clock: real, ws: seq<MusicTimer.Window>, e: Event)
    requires Valid(cfg, s) && EventOk(cfg, s, e) && EventTime(e, clock) >= clock
    requires MusicTimer.Tracks(s.music, ws, clock)
    ensures MusicTimer.Tracks(Apply(cfg, s, e).state.music,
                              ws + MusicTimer.Windows(EventTime(e, clock), Apply(cfg, s, e).effects),
                              EventTime(e, clock))
  {
    match e
    case Frame(now, d) =>
      FrameTracks(cfg, s, clock, ws, now, d);
    case GameStarted(now, k) =>
      MusicTimer.ApplyTracks(cfg.music, s.music, clock, ws, MusicTimer.GameStarted(now, k));
    case GameStopped =>
      MusicTimer.ApplyTracks(cfg.music, s.music, clock, ws, MusicTimer.GameStopped);
    case FlaresResumed(now, d) =>
      var r := ResumeFlares(cfg, s, now, d);
      QuietTracks(s.music, ws, clock, now, r.effects);
    case SpinStarted(now) =>
      var r := OnSpinStart(cfg, s, now);
      QuietTracks(s.music, ws, clock, now, r.effects);
    case SpinResult(now, result) =>
      var r := OnSpinResults(cfg, s, now, result).0;
      WinSequence.RunStartsNoMusic(result, s.flares, now, cfg.flareCount);
      QuietTracks(s.music, ws, clock, now, r.effects);
  }

  /** A frame acts on the music as the music timer's frame does, and its flare
      triggers open no window. */
  lemma FrameTracks(cfg: Config, s: Actions, clock: real, ws: seq<MusicTimer.Window>, now: real, d: UpdateDraws)
    requires Valid(cfg, s) && UpdateDrawsOk(cfg, s, now, d) && now >= clock
    requires MusicTimer.Tracks(s.music, ws, clock)
    ensures MusicTimer.Tracks(Update(cfg, s, now, d).state.music,
                              ws + MusicTimer.Windows(now, Update(cfg, s, now, d).effects), now)
  {
    var m := MusicTimer.Update(cfg.music, s.music, now, d.clip, d.jitter);
    var f := FillIfEmpty(s.flares, now, cfg.flareCount, d.pattern, d.duration, d.pulse);
    MusicTimer.ApplyTracks(cfg.music, s.music, clock, ws, MusicTimer.Frame(now, d.clip, d.jitter));
    MusicTimer.WindowsAppend(now, m.effects, f.effects);
    MusicTimer.WindowsNoMusic(now, f.effects);
    assert MusicTimer.Windows(now, m.effects) + [] == MusicTimer.Windows(now, m.effects);
  }

  /** Effects that start no clip, at a later time, keep the windows in step with
      music fields they leave alone. */
  lemma QuietTracks(m: MusicTimer.Music, ws: seq<MusicTimer.Window>, clock: real, t: real, es: seq<Effect>)
    requires MusicTimer.Tracks(m, ws, clock) && t >= clock
    requires NoMusic(es)
    ensures MusicTimer.Tracks(m, ws + MusicTimer.Windows(t, es), t)
  {
    MusicTimer.WindowsNoMusic(t, es);
    assert ws + [] == ws;
  }

  /** The music never overlaps, whatever flare and spin events are interleaved with
      the frames and game events: each clip's window ends before the next begins. */
  lemma {:induction false} MusicNeverOverlaps(cfg: Config, s: Actions, clock: real, ws: seq<MusicTimer.Window>, evs: seq<Event>)
    requires Valid(cfg, s) && Runnable(cfg, s, evs) && Monotone(clock, evs)
    requires MusicTimer.Tracks(s.music, ws, clock)
    ensures MusicTimer.Spaced(ws + MusicWindows(cfg, s, clock, evs))
    decreases |evs|
  {
    if |evs| == 0 {
      assert ws + [] == ws;
    } else {
      var t := EventTime(evs[0], clock);
      var r := Apply(cfg, s, evs[0]);
      var here := MusicTimer.Windows(t, r.effects);
      ApplyTracksMusic(cfg, s, clock, ws, evs[0]);
      MusicNeverOverlaps(cfg, r.state, t, ws + here, evs[1..]);
      MusicWindowsFirst(cfg, s, clock, evs);
      AppendAssoc(ws, here, MusicWindows(cfg, r.state, t, evs[1..]));
    }
  }

  /** The windows of a run are those of its first event followed by those of the rest. */
  lemma MusicWindowsFirst(cfg: Config, s: Actions, clock: real, evs: seq<Event>)
    requires Valid(cfg, s) && Runnable(cfg, s, evs) && |evs| > 0
    ensures Runnable(cfg, Apply(cfg, s, evs[0]).state, evs[1..])
    ensures MusicWindows(cfg, s, clock, evs) ==
            MusicTimer.Windows(EventTime(evs[0], clock), Apply(cfg, s, evs[0]).effects) +
            MusicWindows(cfg, Apply(cfg, s, evs[0]).state, EventTime(evs[0], clock), evs[1..])
  {
  }

  lemma AppendAssoc<T>(a: seq<T>, b: seq<T>, c: seq<T>)
    ensures a + (b + c) == (a + b) + c
  {
  }

  /** From Start() on, no two clips ever play at the same time. */
  lemma MusicNeverOverlapsFromStart(cfg: Config, now: real, jitter: real, evs: seq<Event>)
    requires MusicTimer.JitterOk(cfg.music, false, jitter)
    requires Runnable(cfg, Init(cfg, now, jitter), evs) && Monotone(now, evs)
    ensures MusicTimer.Spaced(MusicWindows(cfg, Init(cfg, now, jitter), now, evs))
  {
    var s := Init(cfg, now, jitter);
    MusicNeverOverlaps(cfg, s, now, [], evs);
    assert [] + MusicWindows(cfg, s, now, evs) == MusicWindows(cfg, s, now, evs);
  }
}

=== FILE: win_sequence.dfy ===
/** The win celebration for one spin result: what happens at once (audio, text,
    animator, flare preemption, jackpot), how long the sequence waits, and what it
    raises when the wait is over.
 */
module WinSequence {
  import opened Basics
  import opened Effects
  import opened FlarePatterns
  import opened FlareSlot

  const BigWinText := "BIG WIN!"
  const MassiveWinText := "MASSIVE WIN!"

  /** A win sequence: the effects logged before its wait, the flare slot it leaves,
      the wait in seconds, and the effects logged after the wait. */
  datatype WinPlan = WinPlan(opening: seq<Effect>, slot: Slot, waitTime: real, closing: seq<Effect>)

  /** The tier of a spin result: 0 below 1, 1 in [1, 10), 2 ("BIG WIN") in [10, 30),
      3 ("MASSIVE WIN") from 30 on; each boundary belongs to the higher tier. */
  function Tier(result: int): (t: nat)
    ensures t <= 3
  {
    if result < 1 then 0 else if result < 10 then 1 else if result < 30 then 2 else 3
  }

  /** The effects of the part of the sequence after the wait: the win animator is
      told "Done" from tier 2 on, and the spin-result-done event is raised for every
      result. */
  function Closing(result: int): (e: seq<Effect>)
    ensures |e| > 0 && e[|e| - 1] == SpinResultDone
    ensures SpinResultDone in e
    ensures WinAnimator(DoneTrigger) in e <==> Tier(result) >= 2
    ensures |e| == if Tier(result) >= 2 then 2 else 1
  {
    (if result >= 10 then [WinAnimator(DoneTrigger)] else []) + [SpinResultDone]
  }

  /** The flare pattern a tier preempts the slot with, if any. */
  function TierFlares(tier: nat): Option<Pattern> {
    if tier == 2 then Some(Win(0.1, 3.0)) else if tier == 3 then Some(Win(0.1, 5.0)) else None
  }

  /** The opening effects of each tier, tier by tier, with `flares` the
      flare triggers of the first pulse of the tier's preempting pattern. */
  function TierOpening(tier: nat, flares: seq<Effect>): seq<Effect> {
    match tier
    case 0 => []
    case 1 => [PlayAudio(WinLow)]
    case 2 => [WinText(BigWinText), WinAnimator(StartTrigger)] + flares + [PlayAudio(WinMedium)]
    case _ => [WinText(MassiveWinText), WinAnimator(StartTrigger)] + flares + [PlayAudio(WinHigh), Jackpot]
  }

  /** The flare triggers of the first pulse of a tier's preempting pattern. */
  function TierFirstPulse(tier: nat, n: nat): (e: seq<Effect>)
    requires tier >= 2 ==> n >= 2
    ensures FlaresInRange(e, n)
    ensures tier < 2 ==> e == []
  {
    match TierFlares(tier)
    case None => []
    case Some(p) => Flares(Fire(p, n, InitialCursor(p), Draw([], 0.0)).value.fired)
  }

  /** A run of WinSequence for `result` at time `now`, in the order the C#
      executes its three independent tier tests. */
  function Run(result: int, s: Slot, now: real, n: nat): (r: WinPlan)
    requires SlotOk(s, n)
    requires result >= 10 ==> n >= 2
    ensures SlotOk(r.slot, n)
    ensures r.waitTime == if result < 10 then 1.0 else if result < 30 then 3.0 else 4.0
    ensures r.closing == Closing(result)
    // the tier decides the slot: untouched below tier 2, preempted by a Win task otherwise
    ensures TierFlares(Tier(result)).None? ==> r.slot == s
    ensures TierFlares(Tier(result)).Some? ==>
              r.slot.Some? && r.slot.value.pattern == TierFlares(Tier(result)).value
              && r.slot.value.deadline == now + TierFlares(Tier(result)).value.duration
    // the Win task has made its first pulse, from cursor -1 to 0, and waits 0.1 seconds
    ensures result >= 10 ==> r.slot.value.cursor == 0 && r.slot.value.resumeAt == now + 0.1
    ensures r.opening == TierOpening(Tier(result), TierFirstPulse(Tier(result), n))
  {
    var low := 1 <= result < 10;
    var big := 10 <= result < 30;
    var massive := result >= 30;
    var lowEffects := if low then [PlayAudio(WinLow)] else [];
    var b := if big then Preempt(s, Win(0.1, 3.0), now, n, Draw([], 0.0)) else Transition(s, []);
    var bigEffects :=
      if big then [WinText(BigWinText), WinAnimator(StartTrigger)] + b.effects + [PlayAudio(WinMedium)]
      else [];
    var m := if massive then Preempt(b.slot, Win(0.1, 5.0), now, n, Draw([], 0.0)) else Transition(b.slot, []);
    var massiveEffects :=
      if massive then [WinText(MassiveWinText), WinAnimator(StartTrigger)] + m.effects + [PlayAudio(WinHigh), Jackpot]
      else [];
    var waitTime := 1.0 + (if big then 2.0 else 0.0) + (if massive then 3.0 else 0.0);
    WinPlan(lowEffects + bigEffects + massiveEffects, m.slot, waitTime, Closing(result))
  }

  /** Which cues a tier's opening holds: exactly one tier's audio cue, the win text
      and "Start" trigger from tier 2 on, the jackpot only at tier 3, and nothing at
      tier 0. */
  lemma TierOpeningCues(tier: nat, flares: seq<Effect>, n: nat)
    requires tier <= 3 && FlaresInRange(flares, n)
    requires tier < 2 ==> flares == []
    ensures PlayAudio(WinLow) in TierOpening(tier, flares) <==> tier == 1
    ensures PlayAudio(WinMedium) in TierOpening(tier, flares) <==> tier == 2
    ensures PlayAudio(WinHigh) in TierOpening(tier, flares) <==> tier == 3
    ensures WinText(BigWinText) in TierOpening(tier, flares) <==> tier == 2
    ensures WinText(MassiveWinText) in TierOpening(tier, flares) <==> tier == 3
    ensures WinAnimator(StartTrigger) in TierOpening(tier, flares) <==> tier >= 2
    ensures Jackpot in TierOpening(tier, flares) <==> tier == 3
    ensures tier == 0 <==> TierOpening(tier, flares) == []
  {
    OpeningMembers(tier, flares);
    assert forall e :: e in flares ==> e.Flare?;
  }

  /** A tier's opening never holds what belongs after the wait, and its only flare
      triggers are the given ones, from tier 2 on. */
  lemma TierOpeningFlares(tier: nat, flares: seq<Effect>, n: nat)
    requires tier <= 3 && FlaresInRange(flares, n)
    requires tier < 2 ==> flares == []
    ensures WinAnimator(DoneTrigger) !in TierOpening(tier, flares)
    ensures SpinResultDone !in TierOpening(tier, flares)
    ensures forall e :: e in TierOpening(tier, flares) && e.Flare? ==> tier >= 2 && 0 <= e.index < n
  {
    OpeningMembers(tier, flares);
    assert forall e :: e in flares ==> e.Flare? && 0 <= e.index < n;
  }

  /** Besides the flare triggers, a tier's opening holds the cues of its flare-less opening. */
  lemma OpeningMembers(tier: nat, flares: seq<Effect>)
    requires tier < 2 ==> flares == []
    ensures forall e :: e in TierOpening(tier, flares) <==> e in TierOpening(tier, []) || e in flares
  {
    if tier >= 2 {
      var front := TierOpening(tier, [])[..2];
      var back := TierOpening(tier, [])[2..];
      assert TierOpening(tier, []) == front + back;
      assert TierOpening(tier, flares) == front + flares + back;
    }
  }

  /** The opening of a run holds exactly its tier's effects: low audio only in
      [1, 10), the jackpot only from 30 on, and flare triggers only from 10 on. */
  lemma RunEffects(result: int, s: Slot, now: real, n: nat)
    requires SlotOk(s, n)
    requires result >= 10 ==> n >= 2
    ensures PlayAudio(WinLow) in Run(result, s, now, n).opening <==> 1 <= result < 10
    ensures PlayAudio(WinMedium) in Run(result, s, now, n).opening <==> 10 <= result < 30
    ensures PlayAudio(WinHigh) in Run(result, s, now, n).opening <==> result >= 30
    ensures WinText(BigWinText) in Run(result, s, now, n).opening <==> 10 <= result < 30
    ensures WinText(MassiveWinText) in Run(result, s, now, n).opening <==> result >= 30
    ensures WinAnimator(StartTrigger) in Run(result, s, now, n).opening <==> result >= 10
    ensures Jackpot in Run(result, s, now, n).opening <==> result >= 30
    ensures Run(result, s, now, n).opening == [] <==> result < 1
    ensures forall e :: e in Run(result, s, now, n).opening && e.Flare? ==> result >= 10 && 0 <= e.index < n
  {
    TierOpeningCues(Tier(result), TierFirstPulse(Tier(result), n), n);
    TierOpeningFlares(Tier(result), TierFirstPulse(Tier(result), n), n);
  }

  /** A tier's opening plays win cues only: it starts no music clip. */
  lemma TierOpeningNoMusic(tier: nat, flares: seq<Effect>, n: nat)
    requires tier <= 3 && FlaresInRange(flares, n)
    requires tier < 2 ==> flares == []
    ensures NoMusic(TierOpening(tier, flares))
  {
    OpeningMembers(tier, flares);
    assert forall e :: e in flares ==> e.Flare?;
    var cues := TierOpening(tier, []);
    forall e | e in cues
      ensures !StartsMusic(e)
    {
      if tier == 1 {
        assert cues == [PlayAudio(WinLow)];
      } else if tier == 2 {
        assert cues == [WinText(BigWinText), WinAnimator(StartTrigger), PlayAudio(WinMedium)];
      } else if tier == 3 {
        assert cues == [WinText(MassiveWinText), WinAnimator(StartTrigger), PlayAudio(WinHigh), Jackpot];
      }
    }
  }

  /** The opening of a run plays win cues only: it starts no music clip. */
  lemma RunStartsNoMusic(result: int, s: Slot, now: real, n: nat)
    requires SlotOk(s, n)
    requires result >= 10 ==> n >= 2
    ensures NoMusic(Run(result, s, now, n).opening)
  {
    TierOpeningNoMusic(Tier(result), TierFirstPulse(Tier(result), n), n);
  }
}
